=== FILE: README.md ===
# deunhealth recovery core, modelled in Dafny

deunhealth watches a container runtime for containers that opted in with the
label `deunhealth.restart.on.unhealthy=true` and restarts each one that turns
unhealthy. This project models its core in two parts, stated over sequences so
that no concurrency has to be modelled:

- **The runtime wrapper** (`internal/docker/unhealthy.go`, module `Docker`).
  It turns listed container records and event messages into `Container`
  values. The `deunhealth.linked.containers` label is split on `","` with Go
  `strings.Split` semantics (module `GoStrings`). The per-message rule forwards
  only container messages whose action is exactly `health_status: unhealthy`.
  The live subscription `StreamUnhealthy` is a pure function. It folds over the
  cases its `select` chose (message received, cancellation, subscription
  failure) and returns the containers sent plus the one terminal error.
- **The recovery loop** (`internal/loop/unhealthy.go`, module `Loop`). `Run` is
  a state machine: Starting → CatchingUp → Streaming → ShuttingDown → Done.
  The runtime's answers (`GetLabeled`, `GetUnhealthy`, the outcome of each
  `RestartContainer`) are supplied in an `Env`. The streaming `select` is an
  input trace of `Cancel`, `StreamError(e)` and `Event(c)`. The output is the
  ordered log of runtime calls, restarts included, plus the final phase. Phase
  `Done(err)` means `Run` returned `err`.

The central result is the contract of `Loop.Run`. It says a run's calls and
final phase equal a description written without the state machine:
- the startup queries;
- one restart per snapshot entry, by name, in order;
- the stream start;
- one restart per event that arrives before the first cancellation or stream
  error.

Files: `common.dfy` (errors, `Option`, `Result`), `strings.dfy`, `docker.dfy`,
`loop.dfy`.

Notes on behaviour:
- The code does no deduplication and no restart of linked containers; the
  linked names are parsed but never read by the loop.
- On cancellation the stream takes exactly one value from the event
  subscription's error channel (`internal/docker/unhealthy.go:70`) before
  reporting the context's error.
- Restarts are requested by `Name`, not by the runtime identifier
  (`internal/loop/unhealthy.go:71`).

## Model

| member | source | states |
|---|---|---|
| GoStrings.Split | internal/docker/unhealthy.go:37 | The label splits into one more piece than it has commas, so `""` gives `[""]`. No piece contains a comma. |
| GoStrings.JoinSplit | internal/docker/unhealthy.go:37 | Joining the pieces with `","` gives back exactly the label value. |
| GoStrings.SplitJoin | internal/docker/unhealthy.go:90 | Splitting a join of one or more comma-free names gives them back, so Split inverts Join on every list Split can produce. The empty list is the exception: `[]` joins to `""`, which splits to `[""]`. |
| GoStrings.SplitExamples | internal/docker/unhealthy.go:37 | Sample label values: `""` splits to `[""]`, `"a,b"` to `["a","b"]` and `"a,"` to `["a",""]`. |
| Docker.LinkedContainers | internal/docker/unhealthy.go:32-45 | An absent label gives the empty list. A present label gives comma-free names that join back to the label, one more than its commas. |
| Docker.FromRecord | internal/docker/unhealthy.go:32-46 | ID and Image are copied from the record and Name comes from `extractName`, on both label branches. When the label is absent the linked list is empty. When it is present the list is exactly the label split on commas, and it joins back to the label. |
| Docker.FromMessage | internal/docker/unhealthy.go:83-99 | ID comes from the actor and Name from `extractNameFromActor`. Image is the `image` attribute, or `""` when the attribute is missing (Go's zero value). The linked list is as for records: empty without the attribute, otherwise exactly the attribute's value split on commas. |
| Docker.GetUnhealthy | internal/docker/unhealthy.go:15-50 | A failed list is returned unchanged, with no containers. Otherwise there is one container per listed record, and element i is built from record i. |
| Docker.QualifyingIsSent | internal/docker/unhealthy.go:78-104 | Completeness of the filter: a container message with the exact unhealthy action whose send was delivered, received before any terminal case, is sent. Its container appears in arrival order, after everything sent before it and before everything sent after it. |
| Docker.Forward | internal/docker/unhealthy.go:79-104 | A message sends at most one container. It sends one exactly when it is a container message, its action is exactly `health_status: unhealthy` and the send was not abandoned on cancellation. |
| Docker.StreamUnhealthy | internal/docker/unhealthy.go:67-107 | Exactly one terminal value, iff a terminal case fired. It is the first terminal case's: `ctx.Err()` on cancellation, else the subscription error. No more containers are sent than messages arrived before it. |
| Docker.StreamStopsAtTerminal | internal/docker/unhealthy.go:69-76 | Nothing after the first terminal case affects what the stream sends or reports, because it has returned. |
| Docker.StreamAppend | internal/docker/unhealthy.go:78-104 | Containers are sent in message-arrival order: when `a` holds no terminal case, the output for `a + b` is the output for `a` followed by that for `b`, and the terminal value is that of `b`. |
| Docker.SentFromQualifying | internal/docker/unhealthy.go:78-104 | Every container sent was built from a qualifying message received before the terminal case, whose send was delivered. |
| Docker.OnlyUnhealthyActionForwarded | internal/docker/unhealthy.go:79-81 | If no message has the action `health_status: unhealthy`, nothing is sent. |
| Loop.Run | internal/loop/unhealthy.go:22-66 | For every trace, with restart outcomes erased, the calls are: `GetLabeled`, then `GetUnhealthy` if that succeeded, then one restart per snapshot entry by name and in order, then the stream start, then one restart per container that arrived before the first cancellation or stream error. The reference reads only container names, never IDs or linked names. The final phase is the startup error, the stream's error, the context's error once the stream answered a cancellation, or still running. |
| Loop.Start | internal/loop/unhealthy.go:26-40 | The first call is `GetLabeled` with the opt-in label. Startup ends the run iff either query fails, with that query's error (the `GetLabeled` error if both would fail). The snapshot is queried iff `GetLabeled` succeeded, and no other call is made. When both queries succeed, the loop moves to catch-up with the snapshot as its pending list. |
| Loop.RestartUnhealthy | internal/loop/unhealthy.go:68-76 | One restart call is appended, by the container's name, carrying the runtime's outcome for that call. Earlier calls and the phase are unchanged whatever the outcome. With outcomes erased, the log is the same for success and failure. |
| Loop.Step | internal/loop/unhealthy.go:47-64 | One `select` iteration adds at most one call, and only for an event while Streaming: a restart by that container's name. While Streaming, the loop stays there iff a container arrived and moves to ShuttingDown iff cancelled. It returns on, and only on, a value from the stream's error channel: that error unchanged while Streaming, `ctx.Err()` while shutting down. A returned run never changes. |
| Loop.GetLabeledFails | internal/loop/unhealthy.go:26-29 | If `GetLabeled` fails, `Run` returns that error, having made no snapshot query and no restart. |
| Loop.GetUnhealthyFails | internal/loop/unhealthy.go:34-37 | If the snapshot query fails, `Run` returns that error with zero restarts. |
| Loop.CatchUp | internal/loop/unhealthy.go:38-45 | From CatchingUp, every pending container gets exactly one restart, by name and in snapshot order, whatever the outcomes. Then the stream is started and the loop is in Streaming. Any other phase is left alone. |
| Loop.CatchUpBeforeStreaming | internal/loop/unhealthy.go:38-45 | In a full run the N snapshot restarts come right after the two queries and before the single stream start. Every later call is a restart. |
| Loop.StreamingRun | internal/loop/unhealthy.go:47-64 | From Streaming, each event before the first cancellation or stream error gives exactly one restart, in arrival order, and the loop stays in Streaming. A stream error is returned unchanged. No restart happens after either. |
| Loop.ShuttingDownOutcome | internal/loop/unhealthy.go:49-54 | After cancellation no call is made. `Run` returns `ctx.Err()` only once a value has arrived on the stream's error channel, and until then it keeps waiting. |
| Loop.DoneAbsorbs | internal/loop/unhealthy.go:54-60 | Once `Run` has returned, no further input changes its calls or its result. |
| Loop.RestartOutcomesIgnored | internal/loop/unhealthy.go:68-76 | Two runtimes that differ only in restart outcomes give the same calls (up to the recorded outcome) and the same returned error. A restart failure never stops the loop. |
| Loop.RunRecordsOutcomes | internal/loop/unhealthy.go:71-76 | Each restart call in the log carries the runtime's answer to that very call (that the answer changes nothing else is `Loop.RestartOutcomesIgnored`). |
| Loop.EventsThenError | internal/loop/unhealthy.go:56-63 | Containers received one after another, then a stream error: one restart per container, by name and in arrival order, then that error is returned unchanged. |
| Loop.StreamFailureEndsRun | internal/loop/unhealthy.go:56-60 | Applies `Loop.EventsThenError` to the stream's output: when the loop is given the containers a failed subscription sent, then its terminal value, it restarts exactly those containers, by name and in order, and returns that failure unchanged. It does not model how the two tasks interleave. |
| Loop.CancelScenario | internal/loop/unhealthy.go:47-54 | Snapshot `[web]`, then event `worker`, then cancellation, then the stream's acknowledgement. The whole call log is `GetLabeled`, `GetUnhealthy`, restart `web`, stream start, restart `worker`, and `Run` returns the context's error. |

## Left out

- Runtime I/O is not modelled: `ContainerList`, `Events`, `RestartContainer` and `GetLabeled`. Their results are inputs, and so is what `ctx.Err()` reports.
- The filter-argument construction (`filters.NewArgs`) is not modelled. It is a request to the runtime; only the label constant is kept.
- `extractName`, `extractNameFromActor` and `isContainerMessage` are not part of this model. They are arbitrary functions in `Docker.Helpers`.
- Concurrency is not modelled: goroutines, channel creation and closing, `context.WithCancel`/`cancel`, and the random choice among ready `select` cases. A trace of the chosen cases stands in for them.
- Because of that, a trace may list a case that a real run could not reach. One example is an `Event` while the loop is shutting down, where it reads only the error channel; such inputs leave the state unchanged.
- Logging and `buildEnum` are not modelled. `GetLabeled`'s answer is used only to decide whether startup fails.
- Go's nil-versus-empty slice distinction has no counterpart. A Dafny sequence is never nil, so "empty list, never nil" is the ensures `linked == []`.
- Docker.StreamUnhealthy: for a finite trace with no terminal case, `crashed` is `None`. It stands for a stream still running, because the Go function only returns through a terminal case.
- The value drained from the event subscription's error channel on cancellation is carried by the `Cancelled` input and discarded, as in the code.
- Restart outcomes come from a function of the call's position in the log. Only that position distinguishes one restart call from another.

=== FILE: common.dfy ===
/** Values shared by the runtime wrapper and the recovery loop: the error
    values that flow through them and the two failure-compatible wrappers. */
module Common {

  /** An error as the container runtime or the context reports it. The model
      never inspects an error; it only passes it on or drops it. */
  type Error = string

  datatype Option<+T> = None | Some(value: T)

  /** A runtime call's outcome: its value, or the error it returned. */
  datatype Result<+T> = Ok(value: T) | Err(error: Error)
}

=== FILE: docker.dfy ===
/** The runtime wrapper of `internal/docker/unhealthy.go`: turning listed
    container records and event messages into `Container` values, and the
    live subscription as a pure function of what its `select` observed. */
module Docker {
  import opened Common
  import opened GoStrings

  /** Opt-in label: only containers carrying it are listed or streamed. */
  const RestartLabel := "deunhealth.restart.on.unhealthy=true"
  /** Label holding the comma-separated names of companion containers. */
  const LinkedLabel := "deunhealth.linked.containers"
  /** The one event action that marks an unhealthy transition. */
  const UnhealthyAction := "health_status: unhealthy"
  /** Actor attribute holding the image reference of an event's container. */
  const ImageAttribute := "image"
  const Separator := ','

  /** One detection of an unhealthy container. */
  datatype Container = Container(
    id: string,
    name: string,
    image: string,
    linkedContainers: seq<string>)

  /** A container as the runtime's list query returns it. */
  datatype Record = Record(
    id: string,
    names: seq<string>,
    image: string,
    labels: map<string, string>)

  /** The container an event is about. */
  datatype Actor = Actor(id: string, attributes: map<string, string>)

  /** An event of the runtime's event stream. */
  datatype Message = Message(kind: string, action: string, actor: Actor)

  /** The package's name-extraction and message-classification helpers,
      whose definitions are not part of this model: they are taken as
      arbitrary functions. */
  datatype Helpers = Helpers(
    extractName: Record -> string,
    extractNameFromActor: Actor -> string,
    isContainerMessage: Message -> bool)

  /** A Go map read: a missing key reads as the zero value "". */
  function Lookup(m: map<string, string>, key: string): string
  {
    if key in m then m[key] else ""
  }

  /** The linked-container names declared by a label or attribute map:
      the label split on commas when present, an empty list when absent. */
  function LinkedContainers(labels: map<string, string>): (linked: seq<string>)
    ensures LinkedLabel !in labels ==> linked == []
    ensures LinkedLabel in labels ==>
      && Join(linked, Separator) == labels[LinkedLabel]
      && |linked| == Count(labels[LinkedLabel], Separator) + 1
      && forall k :: 0 <= k < |linked| ==> Separator !in linked[k]
  {
    if LinkedLabel in labels then
      JoinSplit(labels[LinkedLabel], Separator);
      Split(labels[LinkedLabel], Separator)
    else
      []
  }

  /** The `Container` built from one listed record. */
  function FromRecord(record: Record, h: Helpers): (c: Container)
    ensures c.id == record.id && c.name == h.extractName(record) && c.image == record.image
    ensures LinkedLabel !in record.labels ==> c.linkedContainers == []
    ensures LinkedLabel in record.labels ==>
      && c.linkedContainers == Split(record.labels[LinkedLabel], Separator)
      && Join(c.linkedContainers, Separator) == record.labels[LinkedLabel]
  {
    Container(record.id, h.extractName(record), record.image, LinkedContainers(record.labels))
  }

  /** The `Container` built from one event's actor. */
  function FromMessage(message: Message, h: Helpers): (c: Container)
    ensures c.id == message.actor.id && c.name == h.extractNameFromActor(message.actor)
    ensures ImageAttribute in message.actor.attributes ==>
      c.image == message.actor.attributes[ImageAttribute]
    ensures ImageAttribute !in message.actor.attributes ==> c.image == ""
    ensures LinkedLabel !in message.actor.attributes ==> c.linkedContainers == []
    ensures LinkedLabel in message.actor.attributes ==>
      && c.linkedContainers == Split(message.actor.attributes[LinkedLabel], Separator)
      && Join(c.linkedContainers, Separator) == message.actor.attributes[LinkedLabel]
  {
    var attributes := message.actor.attributes;
    Container(message.actor.id, h.extractNameFromActor(message.actor),
              Lookup(attributes, ImageAttribute), LinkedContainers(attributes))
  }

  /** The snapshot query: `listed` is what the runtime's filtered list call
      returned. A failed list is passed on as is; otherwise every record
      becomes one container, in the order listed. */
  method GetUnhealthy(listed: Result<seq<Record>>, h: Helpers) returns (r: Result<seq<Container>>)
    ensures listed.Err? ==> r == Err(listed.error)
    ensures listed.Ok? ==> r.Ok? && |r.value| == |listed.value|
    ensures listed.Ok? ==>
      forall i :: 0 <= i < |listed.value| ==> r.value[i] == FromRecord(listed.value[i], h)
  {
    if listed.Err? {
      return Err(listed.error);
    }
    var records := listed.value;
    var unhealthies: seq<Container> := [];
    for i := 0 to |records|
      invariant |unhealthies| == i
      invariant forall j :: 0 <= j < i ==> unhealthies[j] == FromRecord(records[j], h)
    {
      unhealthies := unhealthies + [FromRecord(records[i], h)];
    }
    return Ok(unhealthies);
  }

  /** The per-message rule: only a container message whose action is
      exactly the unhealthy action yields a container. */
  predicate Qualifies(message: Message, h: Helpers)
  {
    h.isContainerMessage(message) && message.action == UnhealthyAction
  }

  /** How the stream's send of a detected container ended: the consumer
      took it, or cancellation fired first and it was dropped. */
  datatype SendOutcome = Delivered | DroppedOnCancel

  /** Which case of the stream's `select` fired, in order. */
  datatype StreamInput =
    | Received(message: Message, send: SendOutcome)
      /** cancellation observed; `drained` is the value then taken from the
          event subscription's error channel */
    | Cancelled(drained: Error)
      /** the event subscription failed */
    | EventsFailed(error: Error)
  {
    predicate IsTerminal() { !Received? }
  }

  /** What the stream emitted: the containers sent on the data channel,
      in order, and the terminal value sent on the error channel (None when
      the observed inputs ran out before the stream ended). */
  datatype StreamRun = StreamRun(sent: seq<Container>, crashed: Option<Error>)

  /** What one received message puts on the data channel. */
  function Forward(message: Message, send: SendOutcome, h: Helpers): (out: seq<Container>)
    ensures |out| <= 1
    ensures |out| == 1 <==> Qualifies(message, h) && send == Delivered
    ensures |out| == 1 ==> out[0] == FromMessage(message, h)
  {
    if Qualifies(message, h) && send == Delivered then [FromMessage(message, h)] else []
  }

  /** Index of the first terminal input, or `|trace|` when there is none. */
  function FirstTerminal(trace: seq<StreamInput>): (i: nat)
    ensures i <= |trace|
    ensures i < |trace| ==> trace[i].IsTerminal()
    ensures forall j :: 0 <= j < i ==> trace[j].Received?
  {
    if |trace| == 0 || trace[0].IsTerminal() then 0
    else 1 + FirstTerminal(trace[1..])
  }

  /** The error the stream reports for a terminal input: the context's
      error on cancellation (whatever was drained), the subscription's
      error otherwise. */
  function TerminalError(input: StreamInput, ctxErr: Error): Error
    requires input.IsTerminal()
  {
    if input.Cancelled? then ctxErr else input.error
  }

  /** The live subscription, run over the `select` choices it observed.
      `ctxErr` is what `ctx.Err()` reports once the context is cancelled. */
  function StreamUnhealthy(trace: seq<StreamInput>, ctxErr: Error, h: Helpers): (run: StreamRun)
    ensures |run.sent| <= FirstTerminal(trace)
    ensures run.crashed.None? <==> FirstTerminal(trace) == |trace|
    ensures run.crashed.Some? ==>
      run.crashed.value == TerminalError(trace[FirstTerminal(trace)], ctxErr)
    decreases |trace|
  {
    if |trace| == 0 then
      StreamRun([], None)
    else
      match trace[0]
      case Cancelled(_) => StreamRun([], Some(ctxErr))
      case EventsFailed(e) => StreamRun([], Some(e))
      case Received(m, send) =>
        var rest := StreamUnhealthy(trace[1..], ctxErr, h);
        StreamRun(Forward(m, send, h) + rest.sent, rest.crashed)
  }

  /** Inputs after the terminal one are never observed: the stream has
      returned. */
  lemma {:induction false} StreamStopsAtTerminal(trace: seq<StreamInput>, more: seq<StreamInput>, ctxErr: Error, h: Helpers)
    requires FirstTerminal(trace) < |trace|
    ensures StreamUnhealthy(trace + more, ctxErr, h) == StreamUnhealthy(trace, ctxErr, h)
    decreases |trace|
  {
    assert (trace + more)[0] == trace[0];
    if trace[0].Received? {
      assert (trace + more)[1..] == trace[1..] + more;
      StreamStopsAtTerminal(trace[1..], more, ctxErr, h);
    }
  }

  /** One step of the stream on a received message. */
  lemma StreamUnfold(trace: seq<StreamInput>, ctxErr: Error, h: Helpers)
    requires |trace| > 0 && trace[0].Received?
    ensures StreamUnhealthy(trace, ctxErr, h).sent
      == Forward(trace[0].message, trace[0].send, h) + StreamUnhealthy(trace[1..], ctxErr, h).sent
    ensures StreamUnhealthy(trace, ctxErr, h).crashed == StreamUnhealthy(trace[1..], ctxErr, h).crashed
  {
  }

  /** Before the terminal input the stream is a running concatenation:
      what it sends for `before + after` is what it sends for `before`,
      in arrival order, followed by what it sends for `after`. */
  lemma {:induction false} StreamAppend(before: seq<StreamInput>, after: seq<StreamInput>, ctxErr: Error, h: Helpers)
    requires FirstTerminal(before) == |before|
    ensures StreamUnhealthy(before + after, ctxErr, h).sent
      == StreamUnhealthy(before, ctxErr, h).sent + StreamUnhealthy(after, ctxErr, h).sent
    ensures StreamUnhealthy(before + after, ctxErr, h).crashed == StreamUnhealthy(after, ctxErr, h).crashed
    decreases |before|
  {
    if |before| > 0 {
      var t := before + after;
      assert t[0] == before[0] && before[0].Received?;
      assert t[1..] == before[1..] + after;
      StreamAppend(before[1..], after, ctxErr, h);
      StreamUnfold(t, ctxErr, h);
      StreamUnfold(before, ctxErr, h);
    } else {
      assert before + after == after;
    }
  }

  /** Every container sent was built from a received message, before the
      terminal input, that qualified and whose send was delivered. */
  lemma {:induction false} SentFromQualifying(trace: seq<StreamInput>, ctxErr: Error, h: Helpers, k: nat)
    requires k < |StreamUnhealthy(trace, ctxErr, h).sent|
    ensures exists i :: (0 <= i < FirstTerminal(trace) && trace[i].send == Delivered
      && Qualifies(trace[i].message, h)
      && StreamUnhealthy(trace, ctxErr, h).sent[k] == FromMessage(trace[i].message, h))
    decreases |trace|
  {
    var m, send := trace[0].message, trace[0].send;
    var forwarded := Forward(m, send, h);
    var rest := StreamUnhealthy(trace[1..], ctxErr, h);
    assert StreamUnhealthy(trace, ctxErr, h).sent == forwarded + rest.sent;
    if k < |forwarded| {
      assert trace[0].send == Delivered;
    } else {
      SentFromQualifying(trace[1..], ctxErr, h, k - |forwarded|);
      var i :| 0 <= i < FirstTerminal(trace[1..]) && trace[1..][i].send == Delivered
        && Qualifies(trace[1..][i].message, h)
        && rest.sent[k - |forwarded|] == FromMessage(trace[1..][i].message, h);
      assert trace[i + 1] == trace[1..][i];
    }
  }

  /** A qualifying message whose send was delivered, received before any
      terminal input, is sent: its container appears between what was sent
      before it and what is sent after it. */
  lemma QualifyingIsSent(before: seq<StreamInput>, m: Message, after: seq<StreamInput>, ctxErr: Error, h: Helpers)
    requires FirstTerminal(before) == |before|
    requires Qualifies(m, h)
    ensures StreamUnhealthy(before + [Received(m, Delivered)] + after, ctxErr, h).sent
      == StreamUnhealthy(before, ctxErr, h).sent + [FromMessage(m, h)] + StreamUnhealthy(after, ctxErr, h).sent
  {
    var tail := [Received(m, Delivered)] + after;
    assert before + [Received(m, Delivered)] + after == before + tail;
    StreamAppend(before, tail, ctxErr, h);
    StreamUnfold(tail, ctxErr, h);
    assert tail[1..] == after;
  }

  /** Messages whose action is not the unhealthy action never put anything
      on the data channel. */
  lemma {:induction false} OnlyUnhealthyActionForwarded(trace: seq<StreamInput>, ctxErr: Error, h: Helpers)
    requires forall i :: 0 <= i < |trace| && trace[i].Received? ==> trace[i].message.action != UnhealthyAction
    ensures StreamUnhealthy(trace, ctxErr, h).sent == []
    decreases |trace|
  {
    if |trace| > 0 && trace[0].Received? {
      OnlyUnhealthyActionForwarded(trace[1..], ctxErr, h);
    }
  }
}

=== FILE: loop.dfy ===
/** The recovery loop of `internal/loop/unhealthy.go` as a sequential state
    machine: Starting -> CatchingUp -> Streaming -> ShuttingDown -> Done.
    The runtime's answers are supplied in an `Env`, and what the loop's
    `select` observed while streaming is an input trace. */
module Loop {
  import opened Common
  import Docker

  /** A call the loop makes on the runtime, in the order made. A restart
      records the outcome the runtime reported for it (None: success). */
  datatype Call =
    | GetLabeled(labels: seq<string>)
    | GetUnhealthy
    | Restart(name: string, failure: Option<Error>)
    | StartStream

  /** Which case of the streaming `select` fired. */
  datatype Input =
    | Cancel
      /** a value arrived on the stream's error channel */
    | StreamError(error: Error)
      /** a container arrived on the stream's data channel */
    | Event(container: Docker.Container)

  datatype Phase =
    | Starting
    | CatchingUp(pending: seq<Docker.Container>)
    | Streaming
      /** cancelled, waiting for the stream's terminal value */
    | ShuttingDown
      /** `Run` has returned `err` */
    | Done(err: Error)

  datatype Config = Config(phase: Phase, calls: seq<Call>)

  /** The runtime as the loop sees it: the answers of the two startup
      queries, the outcome of the restart call made at each position of
      the call log, and the context's error once cancelled. */
  datatype Env = Env(
    labeled: Result<seq<string>>,
    unhealthy: Result<seq<Docker.Container>>,
    restartResult: nat -> Option<Error>,
    ctxErr: Error)

  const Initial := Config(Starting, [])

  /** The startup queries: the labeled-container listing (for the log),
      then the unhealthy snapshot. Either failure ends the run. */
  function Start(env: Env): (cfg: Config)
    ensures |cfg.calls| >= 1 && cfg.calls[0] == GetLabeled([Docker.RestartLabel])
    ensures cfg.phase.Done? <==> env.labeled.Err? || env.unhealthy.Err?
    ensures cfg.phase.Done? ==>
      cfg.phase.err == (if env.labeled.Err? then env.labeled.error else env.unhealthy.error)
    ensures cfg.phase.CatchingUp? ==> cfg.phase.pending == env.unhealthy.value
    ensures env.labeled.Ok? && env.unhealthy.Ok? ==> cfg.phase == CatchingUp(env.unhealthy.value)
    ensures |cfg.calls| == (if env.labeled.Ok? then 2 else 1)
    ensures GetUnhealthy in cfg.calls <==> env.labeled.Ok?
    ensures forall k :: 0 <= k < |cfg.calls| ==> !cfg.calls[k].Restart?
  {
    var calls := [GetLabeled([Docker.RestartLabel])];
    match env.labeled
    case Err(e) => Config(Done(e), calls)
    case Ok(_) =>
      match env.unhealthy
      case Err(e) => Config(Done(e), calls + [GetUnhealthy])
      case Ok(snapshot) => Config(CatchingUp(snapshot), calls + [GetUnhealthy])
  }

  /** `restartUnhealthy`: one restart call, by name; its outcome is
      recorded and otherwise dropped, so the phase never changes. */
  function RestartUnhealthy(cfg: Config, c: Docker.Container, env: Env): (next: Config)
    ensures next.phase == cfg.phase
    ensures |next.calls| == |cfg.calls| + 1 && next.calls[..|cfg.calls|] == cfg.calls
    ensures Erase(next.calls) == Erase(cfg.calls) + [Restart(c.name, None)]
    ensures next.calls[|cfg.calls|] == Restart(c.name, env.restartResult(|cfg.calls|))
  {
    var call := Restart(c.name, env.restartResult(|cfg.calls|));
    EraseAppend(cfg.calls, [call]);
    Config(cfg.phase, cfg.calls + [call])
  }

  /** The catch-up pass: restart every snapshot entry in order, then start
      the stream. A phase other than CatchingUp is left alone. */
  function CatchUp(cfg: Config, env: Env): (next: Config)
    ensures !cfg.phase.CatchingUp? ==> next == cfg
    ensures cfg.phase.CatchingUp? ==>
      && next.phase == Streaming
      && Erase(next.calls) == Erase(cfg.calls) + Restarts(Names(cfg.phase.pending)) + [StartStream]
    decreases if cfg.phase.CatchingUp? then |cfg.phase.pending| else 0
  {
    match cfg.phase
    case CatchingUp(pending) =>
      if |pending| == 0 then
        EraseAppend(cfg.calls, [StartStream]);
        Config(Streaming, cfg.calls + [StartStream])
      else
        assert Restarts(Names(pending)) == [Restart(pending[0].name, None)] + Restarts(Names(pending[1..]));
        CatchUp(RestartUnhealthy(Config(CatchingUp(pending[1..]), cfg.calls), pending[0], env), env)
    case _ => cfg
  }

  /** One iteration of the streaming `select`, or of the shutdown wait. */
  function Step(cfg: Config, input: Input, env: Env): (next: Config)
    ensures cfg.phase.Done? ==> next == cfg
    ensures |cfg.calls| <= |next.calls| <= |cfg.calls| + 1
    ensures next.calls[..|cfg.calls|] == cfg.calls
    ensures |next.calls| == |cfg.calls| + 1 <==> cfg.phase.Streaming? && input.Event?
    ensures |next.calls| > |cfg.calls| ==>
      (next.calls[|cfg.calls|].Restart? && next.calls[|cfg.calls|].name == input.container.name)
    ensures cfg.phase.Streaming? ==>
      (next.phase.Streaming? <==> input.Event?) && (next.phase.ShuttingDown? <==> input.Cancel?)
    ensures cfg.phase.ShuttingDown? ==> next.phase.ShuttingDown? || next.phase == Done(env.ctxErr)
    ensures cfg.phase.Streaming? && input.StreamError? ==> next.phase == Done(input.error)
    ensures cfg.phase.ShuttingDown? && input.StreamError? ==> next.phase == Done(env.ctxErr)
    ensures !cfg.phase.Done? && next.phase.Done? ==>
      (input.StreamError? && next.phase.err == (if cfg.phase.ShuttingDown? then env.ctxErr else input.error))
  {
    match cfg.phase
    case Streaming =>
      (match input
       case Cancel => Config(ShuttingDown, cfg.calls)
       case StreamError(e) => Config(Done(e), cfg.calls)
       case Event(c) => RestartUnhealthy(cfg, c, env))
    case ShuttingDown =>
      // only the stream's error channel is read while shutting down
      if input.StreamError? then Config(Done(env.ctxErr), cfg.calls) else cfg
    case _ => cfg
  }

  /** The `for { select { … } }` loop: `Step` applied to each input in turn. */
  function Consume(cfg: Config, trace: seq<Input>, env: Env): Config
    decreases |trace|
  {
    if |trace| == 0 then cfg else Consume(Step(cfg, trace[0], env), trace[1..], env)
  }

  /** `Run` over a finite trace of streaming inputs. The phase of the
      result is Done when `Run` has returned, and Streaming or ShuttingDown
      when the trace ran out while it was still running. */
  function Run(env: Env, trace: seq<Input>): (final: Config)
    ensures Erase(final.calls) == ExpectedCalls(env, trace)
    ensures final.phase == ExpectedPhase(env, trace)
  {
    MachineMatchesReference(env, trace);
    Consume(CatchUp(Start(env), env), trace, env)
  }

  // ----- Reference description of a run -----

  /** The restart calls for a list of names, outcomes erased. */
  function Restarts(names: seq<string>): seq<Call>
  {
    seq(|names|, i requires 0 <= i < |names| => Restart(names[i], None))
  }

  function Names(cs: seq<Docker.Container>): seq<string>
  {
    seq(|cs|, i requires 0 <= i < |cs| => cs[i].name)
  }

  /** A call log with the restart outcomes forgotten. */
  function Erase(calls: seq<Call>): seq<Call>
  {
    seq(|calls|, i requires 0 <= i < |calls| =>
      if calls[i].Restart? then Restart(calls[i].name, None) else calls[i])
  }

  /** Index of the first Cancel or StreamError, or `|trace|`. */
  function FirstControl(trace: seq<Input>): (i: nat)
    ensures i <= |trace|
    ensures i < |trace| ==> !trace[i].Event?
    ensures forall j :: 0 <= j < i ==> trace[j].Event?
  {
    if |trace| == 0 || !trace[0].Event? then 0 else 1 + FirstControl(trace[1..])
  }

  /** The containers of a trace's Event inputs, in order. */
  function EventNames(trace: seq<Input>): seq<string>
  {
    if |trace| == 0 then []
    else (if trace[0].Event? then [trace[0].container.name] else []) + EventNames(trace[1..])
  }

  predicate HasStreamError(trace: seq<Input>)
  {
    exists i :: 0 <= i < |trace| && trace[i].StreamError?
  }

  /** The phase a streaming loop ends in: still Streaming when nothing but
      events arrived; the stream's error when that came first; after a
      cancellation, the context's error once any stream value arrives,
      else still ShuttingDown. */
  function StreamingOutcome(trace: seq<Input>, ctxErr: Error): Phase
  {
    var i := FirstControl(trace);
    if i == |trace| then Streaming
    else if trace[i].StreamError? then Done(trace[i].error)
    else if HasStreamError(trace[i + 1..]) then Done(ctxErr)
    else ShuttingDown
  }

  /** The calls of a run, outcomes erased, stated without the machine. */
  function ExpectedCalls(env: Env, trace: seq<Input>): seq<Call>
  {
    var startup := [GetLabeled([Docker.RestartLabel])];
    if env.labeled.Err? then
      startup
    else if env.unhealthy.Err? then
      startup + [GetUnhealthy]
    else
      var catchUp := Restarts(Names(env.unhealthy.value));
      var streamed := Restarts(EventNames(trace[..FirstControl(trace)]));
      startup + [GetUnhealthy] + catchUp + [StartStream] + streamed
  }

  function ExpectedPhase(env: Env, trace: seq<Input>): Phase
  {
    if env.labeled.Err? then Done(env.labeled.error)
    else if env.unhealthy.Err? then Done(env.unhealthy.error)
    else StreamingOutcome(trace, env.ctxErr)
  }

  // ----- Lemmas -----

  /** Once `Run` has returned, no input changes anything. */
  lemma {:induction false} DoneAbsorbs(cfg: Config, trace: seq<Input>, env: Env)
    requires cfg.phase.Done?
    ensures Consume(cfg, trace, env) == cfg
    decreases |trace|
  {
    if |trace| > 0 {
      DoneAbsorbs(cfg, trace[1..], env);
    }
  }

  /** While shutting down no call is made, and the run ends with the
      context's error exactly when a stream value arrives. */
  lemma {:induction false} ShuttingDownOutcome(cfg: Config, trace: seq<Input>, env: Env)
    requires cfg.phase.ShuttingDown?
    ensures Consume(cfg, trace, env).calls == cfg.calls
    ensures Consume(cfg, trace, env).phase ==
      (if HasStreamError(trace) then Done(env.ctxErr) else ShuttingDown)
    decreases |trace|
  {
    if |trace| > 0 {
      if trace[0].StreamError? {
        DoneAbsorbs(Config(Done(env.ctxErr), cfg.calls), trace[1..], env);
      } else {
        ShuttingDownOutcome(cfg, trace[1..], env);
        if HasStreamError(trace) {
          var i :| 0 <= i < |trace| && trace[i].StreamError?;
          assert trace[1..][i - 1] == trace[i];
        }
        if HasStreamError(trace[1..]) {
          var i :| 0 <= i < |trace[1..]| && trace[1..][i].StreamError?;
          assert trace[i + 1] == trace[1..][i];
        }
      }
    }
  }

  lemma EraseAppend(a: seq<Call>, b: seq<Call>)
    ensures Erase(a + b) == Erase(a) + Erase(b)
  {
  }

  lemma EventNamesOfEvents(trace: seq<Input>)
    requires |trace| > 0 && trace[0].Event?
    ensures EventNames(trace) == [trace[0].container.name] + EventNames(trace[1..])
  {
  }

  /** From Streaming, the loop restarts exactly the containers that arrive
      before the first cancellation or stream error, in arrival order, and
      ends in the phase `StreamingOutcome` names. */
  lemma {:induction false} StreamingRun(cfg: Config, trace: seq<Input>, env: Env)
    requires cfg.phase.Streaming?
    ensures Erase(Consume(cfg, trace, env).calls)
      == Erase(cfg.calls) + Restarts(EventNames(trace[..FirstControl(trace)]))
    ensures Consume(cfg, trace, env).phase == StreamingOutcome(trace, env.ctxErr)
    decreases |trace|
  {
    var i := FirstControl(trace);
    if |trace| == 0 {
      assert trace[..i] == [];
    } else {
      var x := trace[0];
      var next := Step(cfg, x, env);
      match x
      case Cancel =>
        assert i == 0 && trace[..i] == [];
        ShuttingDownOutcome(next, trace[1..], env);
      case StreamError(e) =>
        assert i == 0 && trace[..i] == [];
        DoneAbsorbs(next, trace[1..], env);
      case Event(c) =>
        StreamingRun(next, trace[1..], env);
        var rest := trace[1..];
        assert i == 1 + FirstControl(rest);
        assert trace[..i][1..] == rest[..FirstControl(rest)];
        EventNamesOfEvents(trace[..i]);
        EraseAppend(cfg.calls, [Restart(c.name, env.restartResult(|cfg.calls|))]);
        if i < |trace| {
          assert rest[FirstControl(rest) + 1..] == trace[i + 1..];
        }
    }
  }

  /** The machine from its start agrees with the reference description. */
  lemma MachineMatchesReference(env: Env, trace: seq<Input>)
    ensures Erase(Consume(CatchUp(Start(env), env), trace, env).calls) == ExpectedCalls(env, trace)
    ensures Consume(CatchUp(Start(env), env), trace, env).phase == ExpectedPhase(env, trace)
  {
    var started := Start(env);
    if started.phase.Done? {
      DoneAbsorbs(started, trace, env);
    } else {
      StreamingRun(CatchUp(started, env), trace, env);
    }
  }

  /** If listing the labeled containers fails, `Run` returns that error
      having made no other call: no snapshot query and no restart.
      A corollary of `Run`'s contract. */
  lemma GetLabeledFails(env: Env, trace: seq<Input>)
    requires env.labeled.Err?
    ensures Run(env, trace) == Config(Done(env.labeled.error), [GetLabeled([Docker.RestartLabel])])
  {
  }

  /** If the snapshot query fails, `Run` returns that error and restarts
      nothing. A corollary of `Run`'s contract. */
  lemma GetUnhealthyFails(env: Env, trace: seq<Input>)
    requires env.labeled.Ok? && env.unhealthy.Err?
    ensures Run(env, trace)
      == Config(Done(env.unhealthy.error), [GetLabeled([Docker.RestartLabel]), GetUnhealthy])
  {
  }

  /** A snapshot of N containers gives exactly N restart calls, by name and
      in snapshot order, all made before the stream is started; whatever
      the restart outcomes, the loop then streams. A corollary of `Run`'s
      contract. */
  lemma CatchUpBeforeStreaming(env: Env, trace: seq<Input>)
    requires env.labeled.Ok? && env.unhealthy.Ok?
    ensures var n := |env.unhealthy.value|;
      var calls := Erase(Run(env, trace).calls);
      && |calls| >= n + 3
      && calls[2..n + 2] == Restarts(Names(env.unhealthy.value))
      && calls[n + 2] == StartStream
      && forall k :: n + 2 < k < |calls| ==> calls[k].Restart?
  {
  }

  /** Restart failures never matter: two runtimes that differ only in how
      restarts turn out give the same calls, up to the recorded outcomes,
      and the same returned error: `Run`'s contract describes both runs
      without mentioning restart outcomes. */
  lemma RestartOutcomesIgnored(env: Env, env': Env, trace: seq<Input>)
    requires env.labeled == env'.labeled && env.unhealthy == env'.unhealthy
    requires env.ctxErr == env'.ctxErr
    ensures Erase(Run(env, trace).calls) == Erase(Run(env', trace).calls)
    ensures Run(env, trace).phase == Run(env', trace).phase
  {
  }

  /** Each restart call in the log carries the outcome the runtime gave
      for the call at that position. */
  predicate OutcomesRecorded(calls: seq<Call>, env: Env)
  {
    forall j :: 0 <= j < |calls| && calls[j].Restart? ==> calls[j].failure == env.restartResult(j)
  }

  lemma {:induction false} CatchUpRecords(cfg: Config, env: Env)
    requires OutcomesRecorded(cfg.calls, env)
    ensures OutcomesRecorded(CatchUp(cfg, env).calls, env)
    decreases if cfg.phase.CatchingUp? then |cfg.phase.pending| else 0
  {
    if cfg.phase.CatchingUp? && |cfg.phase.pending| > 0 {
      var pending := cfg.phase.pending;
      CatchUpRecords(RestartUnhealthy(Config(CatchingUp(pending[1..]), cfg.calls), pending[0], env), env);
    }
  }

  lemma {:induction false} ConsumeRecords(cfg: Config, trace: seq<Input>, env: Env)
    requires OutcomesRecorded(cfg.calls, env)
    ensures OutcomesRecorded(Consume(cfg, trace, env).calls, env)
    decreases |trace|
  {
    if |trace| > 0 {
      ConsumeRecords(Step(cfg, trace[0], env), trace[1..], env);
    }
  }

  /** The outcome a restart call reports is the runtime's answer to that
      very call; it is recorded and goes nowhere else. */
  lemma RunRecordsOutcomes(env: Env, trace: seq<Input>)
    ensures OutcomesRecorded(Run(env, trace).calls, env)
  {
    CatchUpRecords(Start(env), env);
    ConsumeRecords(CatchUp(Start(env), env), trace, env);
  }

  /** The trace in which the given containers arrive, one after another. */
  function Events(cs: seq<Docker.Container>): seq<Input>
  {
    seq(|cs|, i requires 0 <= i < |cs| => Event(cs[i]))
  }

  lemma {:induction false} EventsOnly(cs: seq<Docker.Container>, tail: seq<Input>)
    ensures FirstControl(Events(cs) + tail) == |cs| + FirstControl(tail)
    ensures EventNames(Events(cs)) == Names(cs)
    decreases |cs|
  {
    if |cs| > 0 {
      EventsOnly(cs[1..], tail);
      assert Events(cs) == [Event(cs[0])] + Events(cs[1..]);
      assert (Events(cs) + tail)[1..] == Events(cs[1..]) + tail;
      assert Names(cs) == [cs[0].name] + Names(cs[1..]);
    } else {
      assert Events(cs) + tail == tail;
    }
  }

  /** Events followed by a stream error: one restart per event, in order,
      then the error is returned unchanged. */
  lemma EventsThenError(env: Env, cs: seq<Docker.Container>, e: Error)
    requires env.labeled.Ok? && env.unhealthy.Ok?
    ensures Run(env, Events(cs) + [StreamError(e)]).phase == Done(e)
    ensures Erase(Run(env, Events(cs) + [StreamError(e)]).calls)
      == [GetLabeled([Docker.RestartLabel]), GetUnhealthy]
        + Restarts(Names(env.unhealthy.value)) + [StartStream] + Restarts(Names(cs))
  {
    var trace := Events(cs) + [StreamError(e)];
    EventsOnly(cs, [StreamError(e)]);
    assert FirstControl(trace) == |cs|;
    assert trace[..|cs|] == Events(cs);
    assert trace[|cs|] == StreamError(e);
    assert StreamingOutcome(trace, env.ctxErr) == Done(e);
  }

  /** `EventsThenError` applied to the stream's output: feeding the loop the
      containers a failed subscription sent, then its terminal value, gives
      one restart per sent container, by name and in order, and returns that
      failure unchanged. It builds the loop's trace from the stream's output
      and says nothing further about how the two interleave. */
  lemma StreamFailureEndsRun(env: Env, streamTrace: seq<Docker.StreamInput>, h: Docker.Helpers)
    requires env.labeled.Ok? && env.unhealthy.Ok?
    requires Docker.StreamUnhealthy(streamTrace, env.ctxErr, h).crashed.Some?
    ensures var run := Docker.StreamUnhealthy(streamTrace, env.ctxErr, h);
      var final := Run(env, Events(run.sent) + [StreamError(run.crashed.value)]);
      && final.phase == Done(run.crashed.value)
      && Erase(final.calls) == [GetLabeled([Docker.RestartLabel]), GetUnhealthy]
        + Restarts(Names(env.unhealthy.value)) + [StartStream] + Restarts(Names(run.sent))
  {
    var run := Docker.StreamUnhealthy(streamTrace, env.ctxErr, h);
    EventsThenError(env, run.sent, run.crashed.value);
  }

  /** Snapshot [web], then event worker, then cancellation and the
      stream's acknowledgement. */
  lemma CancelScenario(env: Env, ackErr: Error)
    requires env.labeled.Ok?
    requires env.unhealthy == Ok([Docker.Container("c1", "web", "img", [])])
    ensures var final := Run(env, [Event(Docker.Container("c2", "worker", "img", [])), Cancel, StreamError(ackErr)]);
      && final.phase == Done(env.ctxErr)
      && Erase(final.calls) == [GetLabeled([Docker.RestartLabel]), GetUnhealthy,
           Restart("web", None), StartStream, Restart("worker", None)]
  {
    var trace := [Event(Docker.Container("c2", "worker", "img", [])), Cancel, StreamError(ackErr)];
    assert FirstControl(trace) == 1;
    assert trace[2..][0].StreamError?;
    assert trace[..1] == [trace[0]];
    assert EventNames(trace[..1]) == ["worker"];
    assert Names(env.unhealthy.value) == ["web"];
    assert Restarts(["web"]) == [Restart("web", None)];
    assert Restarts(["worker"]) == [Restart("worker", None)];
  }
}

=== FILE: strings.dfy ===
/** Go's `strings.Split` and `strings.Join` for a separator of one
    character, which is the only way the runtime wrapper uses them. */
module GoStrings {

  /** Go's `strings.Count` for a one-character separator. */
  function Count(s: string, c: char): nat
  {
    multiset(s)[c]
  }

  /** Position of the first `c` in `s`, or `|s|` when there is none
      (Go's `strings.Index` answers -1 in that case). */
  function IndexOf(s: string, c: char): (i: nat)
    ensures i <= |s|
    ensures i < |s| ==> s[i] == c
    ensures forall j :: 0 <= j < i ==> s[j] != c
    ensures i == |s| <==> c !in s
  {
    if |s| == 0 then 0
    else if s[0] == c then 0
    else 1 + IndexOf(s[1..], c)
  }

  /** `strings.Split(s, [sep])`: the pieces of `s` between separators.
      There is always one more piece than there are separators, so the
      empty string splits into one empty piece, not into none. */
  function Split(s: string, sep: char): (parts: seq<string>)
    ensures |parts| == Count(s, sep) + 1
    ensures forall k :: 0 <= k < |parts| ==> sep !in parts[k]
    decreases |s|
  {
    var i := IndexOf(s, sep);
    if i == |s| then
      [s]
    else
      assert s == s[..i] + [sep] + s[i + 1..];
      assert sep !in s[..i];
      [s[..i]] + Split(s[i + 1..], sep)
  }

  /** `strings.Join(parts, [sep])`. */
  function Join(parts: seq<string>, sep: char): string
  {
    if |parts| == 0 then ""
    else if |parts| == 1 then parts[0]
    else parts[0] + [sep] + Join(parts[1..], sep)
  }

  /** Joining the pieces back gives the string that was split. */
  lemma {:induction false} JoinSplit(s: string, sep: char)
    ensures Join(Split(s, sep), sep) == s
    decreases |s|
  {
    var i := IndexOf(s, sep);
    if i < |s| {
      var rest := s[i + 1..];
      JoinSplit(rest, sep);
      assert Split(s, sep) == [s[..i]] + Split(rest, sep);
      assert |Split(rest, sep)| >= 1;
      assert Join(Split(s, sep), sep) == s[..i] + [sep] + Join(Split(rest, sep), sep);
      assert s == s[..i] + [sep] + rest;
    }
  }

  /** Splitting a join of separator-free pieces gives the pieces back, so
      Split is the exact inverse of Join on the values it can produce. */
  lemma {:induction false} SplitJoin(parts: seq<string>, sep: char)
    requires |parts| >= 1
    requires forall k :: 0 <= k < |parts| ==> sep !in parts[k]
    ensures Split(Join(parts, sep), sep) == parts
    decreases |parts|
  {
    if |parts| > 1 {
      var tail := Join(parts[1..], sep);
      var s := parts[0] + [sep] + tail;
      assert Join(parts, sep) == s;
      IndexOfAfterPrefix(parts[0], tail, sep);
      assert s[..|parts[0]|] == parts[0];
      assert s[|parts[0]| + 1..] == tail;
      SplitJoin(parts[1..], sep);
      assert parts == [parts[0]] + parts[1..];
    }
  }

  /** The first separator of `prefix + [sep] + rest` is the one right after
      a separator-free prefix. */
  lemma IndexOfAfterPrefix(prefix: string, rest: string, sep: char)
    requires sep !in prefix
    ensures IndexOf(prefix + [sep] + rest, sep) == |prefix|
  {
    var s := prefix + [sep] + rest;
    assert s[|prefix|] == sep;
    assert forall j :: 0 <= j < |prefix| ==> s[j] == prefix[j];
  }

  /** Sample label values. */
  lemma SplitExamples()
    ensures Split("", ',') == [""]
    ensures Split("a,b", ',') == ["a", "b"]
    ensures Split("a,", ',') == ["a", ""]
  {
    assert IndexOf("", ',') == 0;
    assert IndexOf("a,b", ',') == 1;
    assert IndexOf("b", ',') == 1;
    assert IndexOf("a,", ',') == 1;
    assert "a,b"[..1] == "a" && "a,b"[2..] == "b";
    assert "a,"[..1] == "a" && "a,"[2..] == "";
    assert Split("b", ',') == ["b"];
    assert Split("", ',') == [""];
  }
}
